=== FILE: README.md ===
# Network map core: filter, features, links summary and controller

This project is a Dafny model of the data logic inside the network map
script `templates/basic/scripts/javascripts/map.js`. That script draws a
wireless network's topology on a map. The model covers:

- **Filter** (`filter.dfy`). The node filter is an ordered record of
  `(key, bool)` pairs. It starts as a copy of the defaults
  `{p2p: true, ap: true, client: true, unlinked: false}`.
  - `setFilter` replaces it with `$.extend({}, defaults, argument)`.
    `$.extend` is modelled as a fold of property assignments (`Put`).
  - `_topologyUrl` turns it into `base + "&filter=" + truthy keys joined by ","`.
  - A JavaScript object never repeats a key. The model states this as
    `UniqueKeys` and requires it of every filter argument.
- **Features** (`features.dfy`). The success callback of `_downloadTopology`
  turns the snapshot into features:
  - one point feature per node, at `[lon, lat]`, coloured by the type table, or black when the key `selected` is present;
  - one two-point line per link, green exactly when `status == "active"`.
- **Links summary** (`summary.dfy`). This is the "Links" line of the node
  popup: the total, then a breakdown of the positive counts in the order PtP,
  Clients, AP client. `ParseSummary` is an independent reader for that format,
  and the round trip through it shows that the line determines the three
  counters.
- **Controller** (`controller.dfy`). `NetworkMap` is a state machine whose
  calls on the map library are recorded as a list of effects:
  - `_downloadTopology` clears the layers and the popup, then issues the request;
  - the success callback adds the features and may focus `meta.selected`;
  - `focusAtNode` centres at zoom 15 and redraws both layers;
  - `setFilter` refreshes without focusing;
  - the constructor starts a focusing download.
- **Filter control** (`filtercontrol.dfy`). `NetworkMapControlNodeFilter` keeps
  a set of highlighted buttons:
  - `_loadState` copies the filter into the buttons;
  - a click toggles one button, and `_saveState` writes every button back into
    the live filter and calls `setFilter`.
- **Shared helpers.** `text.dfy` holds decimal numerals, comma joining and
  splitting. `json.dfy` holds the few JSON values the payload carries, with
  JavaScript truthiness and property-key conversion.

The asynchronous `$.get` is split in two steps:

- the request, `Controller.DownloadTopology`, which ends in a `Fetch` effect carrying the URL and the `focus_selected` flag;
- the callback, `Controller.TopologyLoaded`, which takes the parsed snapshot and that flag as inputs.

Four behaviours of the code that are easy to miss:

- **Unknown filter keys are kept.** `$.extend` copies every property of the
  `setFilter` argument, so a key outside the defaults stays in the filter and
  is sent in the query. (`Filter.MergeShape`, `Filter.MergeLookup`)
- **Layers are appended to.** The layers are emptied when the
  request is issued and `addFeatures` appends on success. The state after a
  single refresh is therefore exactly the new features. (`Controller.RefreshThenLoadFocuses`)
- **A failed fetch leaves the map empty.** `$.get` is given no error callback,
  so the cleared layers and popup stay cleared and no error is reported. The model has no failure step: a failed request is
  a `Fetch` effect that is never followed by `TopologyLoaded`.
- **An absent focus id throws.** For an id that is not in the snapshot, the
  guard of `focusAtNode` at map.js:344 passes unless the snapshot has a node
  keyed "false" (for a truthy id) or "true" (for a falsy id), and reading the
  missing node then raises a TypeError. See Findings.

## Model

| member | source | states |
|---|---|---|
| Filter.CopyIsIdentity | templates/basic/scripts/javascripts/map.js:17-23 | Copying a record with no repeated key into an empty object gives the same properties in the same order. |
| Filter.ExtendShape | templates/basic/scripts/javascripts/map.js:328 | `$.extend(target, src)` first overwrites the target's keys in place with the source's values, then appends the source's new keys in source order. |
| Filter.MergeShape | templates/basic/scripts/javascripts/map.js:327-328 | The filter `setFilter` installs lists the default keys first, then every argument key outside the defaults, with no key repeated. |
| Filter.MergeLookup | templates/basic/scripts/javascripts/map.js:327-328 | After `setFilter(p)`, a key of `p` reads `p`'s value and any other key reads its default: a right-biased merge against the defaults. |
| Filter.MergeLayout | templates/basic/scripts/javascripts/map.js:328 | Every filter `setFilter` installs has the default keys in default order as its prefix. |
| Filter.MergeLaidOut | templates/basic/scripts/javascripts/map.js:328 | Passing `setFilter` a filter that already has the default layout installs that same filter. |
| Filter.MergeOneKey | templates/basic/scripts/javascripts/map.js:327-328 | `setFilter` with a single property is the defaults with that one property assigned. |
| Filter.TruthyKeysMembership | templates/basic/scripts/javascripts/map.js:315-319 | A key is listed in the query exactly when the filter maps it to true. |
| Filter.TopologyUrlQuery | templates/basic/scripts/javascripts/map.js:313-321 | The URL is the base followed by `&filter=`. With no true key the value is empty. Otherwise splitting the value at commas gives back the true keys in filter order. |
| Filter.DefaultQuery | templates/basic/scripts/javascripts/map.js:17-23 | The initial filter queries `&filter=p2p,ap,client`. |
| Filter.MixedQuery | templates/basic/scripts/javascripts/map.js:313-321 | `{p2p: T, ap: F, client: T, unlinked: F}` queries `&filter=p2p,client`. |
| Filter.EmptyQuery | templates/basic/scripts/javascripts/map.js:313-321 | An all-false filter still sends the parameter, as `&filter=`. |
| Features.TypeColour | templates/basic/scripts/javascripts/map.js:242-253 | The type table's colour is undefined exactly for types outside p2p, p2p-ap, ap, client and unlinked, and is never the selection black. |
| Features.NodeColour | templates/basic/scripts/javascripts/map.js:253-255 | A node is black exactly when its record has the key `selected`, whatever the value. It is uncoloured exactly when it is unselected and of an unknown type. |
| Features.NodeColourByType | templates/basic/scripts/javascripts/map.js:242-253 | For an unselected node: p2p and p2p-ap give `#f5c70c`, ap gives `#61d961`, client gives `#5858ff`, unlinked gives `#ff3f4f`, and other types give no colour. |
| Features.LinkColour | templates/basic/scripts/javascripts/map.js:277-279 | A link is `#00ff00` exactly when its status is the string "active", and `#ff0000` otherwise. |
| Features.NodeFeatures | templates/basic/scripts/javascripts/map.js:239-266 | One feature per node, in order, carrying the node's id, the point `[lon, lat]`, the node's whole record and its colour. |
| Features.LinkFeatures | templates/basic/scripts/javascripts/map.js:273-292 | One feature per link, in order, carrying the link's id, the line `[lon1, lat1]` to `[lon2, lat2]`, the link's record and its colour. |
| Text.DecimalRoundTrip | templates/basic/scripts/javascripts/map.js:188-190 | A count rendered as a decimal numeral reads back as the same number. |
| Text.SplitJoinRoundTrip | templates/basic/scripts/javascripts/map.js:320 | Joining comma-free keys with "," and splitting the result at commas gives back the keys. |
| Summary.EntriesOfCounts | templates/basic/scripts/javascripts/map.js:191-197 | The breakdown is "PtP: n", "Clients: n" and "AP client: n", in that order, each present exactly when its count is positive. |
| Summary.ParseEntriesRoundTrip | templates/basic/scripts/javascripts/map.js:191-199 | Reading back a joined breakdown recovers every count, with 0 for each entry left out. |
| Summary.SummaryRoundTrip | templates/basic/scripts/javascripts/map.js:188-199 | Reading a summary line back gives the sum of the three counts and each count. |
| Summary.SummaryInjective | templates/basic/scripts/javascripts/map.js:188-199 | Different counter triples never produce the same summary line. |
| Summary.SummaryBareTotal | templates/basic/scripts/javascripts/map.js:198-199 | The line is the bare total, with no parentheses, exactly when all three counts are zero. |
| Summary.NodeSummaryRoundTrip | templates/basic/scripts/javascripts/map.js:188-199 | The links line of a node's popup, read back, gives the node's total and its PtP, Clients and AP client counters. |
| Summary.SummaryExample | templates/basic/scripts/javascripts/map.js:188-200 | PtP 3, AP subscriptions 2 and clients 0 give "5 (PtP: 3, AP client: 2)". |
| Controller.Construct | templates/basic/scripts/javascripts/map.js:12-41 | A new map stores the given URL. Its filter equals the defaults, with no snapshot, empty layers, no popup and no view. With a URL it clears both layers and requests the default query with focusing on. Without one it makes no call at all. |
| Controller.DownloadTopology | templates/basic/scripts/javascripts/map.js:210-230 | Without a URL: nothing happens and the call returns false. Otherwise the call returns `undefined` (`None`): the nodes layer, then the links layer, then an open popup are cleared, once each, before the one request. The request carries the filter's query and `focus_selected`, which is true when not given. |
| Controller.TopologyLoaded | templates/basic/scripts/javascripts/map.js:230-305 | The snapshot is stored and its node then link features are added; nothing else in the state but the view changes. Focusing is attempted exactly when `focus_selected` holds and `meta` has `selected`, and it never throws. It succeeds exactly when the selected id is a node, and then centres on that node at zoom 15 and redraws both layers. Otherwise the view is unchanged. |
| Controller.CentreOn | templates/basic/scripts/javascripts/map.js:348-355 | Centring sets the view to the node's position at zoom 15 and changes nothing else in the state. The calls are `setCenter` at zoom 15, then a redraw of the nodes layer, then of the links layer. |
| Controller.FocusAtNode | templates/basic/scripts/javascripts/map.js:343-356 | The guard as written declines exactly when the snapshot has a node keyed "true" (falsy id) or "false" (truthy id). It throws when there is no snapshot (at the guard) or, past the guard, when no node is stored under the id. Otherwise it centres on the node stored under the id. |
| Controller.FocusAtNodeChecked | templates/basic/scripts/javascripts/map.js:340-356 | With the membership test the guard's comment describes, an absent id is declined with no effect and a present id is centred on. |
| Controller.FocusAbsentIdThrows | templates/basic/scripts/javascripts/map.js:344-348 | As written, for nodes `{n1}`, focusing "n2" passes the guard and then fails on the missing node. |
| Controller.FocusPresentIdDeclined | templates/basic/scripts/javascripts/map.js:344-345 | As written, a present node is declined when the snapshot also has a node keyed "false". |
| Controller.FocusAgreesOnPresentIds | templates/basic/scripts/javascripts/map.js:343-356 | For a present id in a snapshot with no node under the guard's key, the code as written and the corrected guard behave the same, and both focus. |
| Controller.LoadFocuses | templates/basic/scripts/javascripts/map.js:298-305 | With the corrected guard: loading a snapshot whose `meta.selected` is present with focusing on adds the features, centres once on that node, then redraws nodes and then links. |
| Controller.LoadDeclinesAbsent | templates/basic/scripts/javascripts/map.js:298-305 | With the corrected guard: a `meta.selected` that names no node only adds the features and leaves the view alone. |
| Controller.RefreshThenLoadFocuses | templates/basic/scripts/javascripts/map.js:210-305 | A default refresh returns `undefined`. With the corrected guard: after its callback the layers hold exactly the new snapshot's features and the map is centred on the selected node. |
| Controller.SetFilter | templates/basic/scripts/javascripts/map.js:327-331 | The filter becomes the defaults overridden by the argument, keeps the default layout, and is refetched with focusing off. With a URL, the layers and popup are cleared first, and URL, snapshot and view are kept. Without one only the filter changes. |
| Controller.SetFilterNotCumulative | templates/basic/scripts/javascripts/map.js:327-328 | A second `setFilter` forgets the first: the result depends only on the last argument. |
| Controller.SetFilterNeverFocuses | templates/basic/scripts/javascripts/map.js:327-331 | Whatever snapshot answers a `setFilter` refresh, its callback only adds features and never moves the view. |
| Controller.SetFilterExample | templates/basic/scripts/javascripts/map.js:17-22 | `{unlinked: true}` gives all four true. A following `{client: false}` gives unlinked back at false. |
| FilterControl.ButtonsAreDefaultKeys | templates/basic/scripts/javascripts/map.js:367-372 | The control's buttons are exactly the default filter keys, in the same order. |
| FilterControl.LoadStateMembership | templates/basic/scripts/javascripts/map.js:394-405 | After `_loadState`, a button is highlighted exactly when the filter sets its key to true. A button whose key is absent keeps its state. |
| FilterControl.SaveValuesLookup | templates/basic/scripts/javascripts/map.js:412-422 | `_saveState` overwrites the live filter in place: same keys in the same order, each true exactly when it has a highlighted button. |
| FilterControl.SaveState | templates/basic/scripts/javascripts/map.js:410-425 | After saving, every filter key reads its button state and every other default key reads its default. The installed filter is the merge of the overwritten filter over the defaults, so it has the default layout and no repeated key. The map then clears its layers and popup and refetches with focusing off. Nothing else in the state changes. |
| FilterControl.Toggle | templates/basic/scripts/javascripts/map.js:385-386 | A click flips the clicked button and no other. |
| FilterControl.Click | templates/basic/scripts/javascripts/map.js:385-388 | After a click, only the clicked button has changed, and every filter key reads back the new button state. The installed filter is the merge of the saved filter over the defaults, and the click ends with a non-focusing refetch of its query. |
| FilterControl.AttachInSync | templates/basic/scripts/javascripts/map.js:381-382 | A control attached to a map whose filter has the default layout, with any extra key false, starts in sync: a button is highlighted exactly when its key is true. |
| FilterControl.AttachToNewMap | templates/basic/scripts/javascripts/map.js:23 | A control attached to a freshly built map is in sync with it. |
| FilterControl.ClickKeepsSync | templates/basic/scripts/javascripts/map.js:385-425 | Every click keeps the control and the filter in sync, including a filter that keeps false extra keys from a `setFilter` argument. The clicked key is turned on exactly when it was off, and every other key is unchanged. |
| FilterControl.LoadSaveRoundTrip | templates/basic/scripts/javascripts/map.js:394-425 | Saving straight after loading leaves the filter unchanged, when it has the default layout and every true key has a button. |

## Left out

- OpenLayers construction is not modelled: the map, layers, styles, controls, popups and the popup's HTML. The calls the core makes on them are recorded as effects.
- The EPSG:4326 to EPSG:3857 projection is not modelled, because it is floating-point library code. Positions keep the payload's degrees.
- `zoomToExtent` and the initial centre are not modelled, for the same reason.
- The `$.get` transport and JSON parsing are not modelled. The parsed snapshot is an input to `TopologyLoaded`.
- Overlapping downloads and their race are not modelled, because they need an interleaving of asynchronous callbacks.
- `NetworkMapControlFullScreen` is not modelled: it only toggles a CSS class.
- `NetworkMapControlSelectSpot` is not modelled: it is a drag-marker dialog.
- JavaScript key order is not modelled: the model keeps insertion order. JavaScript lists integer-like keys first, in numeric order.
- Filter values are booleans only. Truthiness of other values passed to `setFilter` is not modelled.
- `focus_selected` is a boolean or absent. Other values are not modelled.
- Inherited property names (`toString`, `constructor`) are not modelled in the colour table or in `key in nodes`.
- The CSS selector built from a filter key in `_loadState`/`_saveState` is assumed to match only that key's button.
- Node and link fields are assumed present. A missing `meta` would make the callback throw; this is not modelled.
- Numbers in the payload are integers, and the counters are naturals. The `String()` rendering of non-numeric counters is not modelled.
- Controller.TopologyLoaded: it uses the corrected guard `FocusAtNodeChecked`. The code as written differs for an absent id (it throws) and for snapshots with a node keyed "true" or "false". See Findings.
- Controller.LoadFocuses: holds with the corrected guard only. As written, a snapshot that also has a node keyed "false" declines at map.js:344 (`Controller.FocusPresentIdDeclined`); without such a node the two agree (`Controller.FocusAgreesOnPresentIds`).
- Controller.LoadDeclinesAbsent: holds with the corrected guard only. As written, an absent `meta.selected` throws a TypeError at map.js:348 (`Controller.FocusAbsentIdThrows`).
- Controller.RefreshThenLoadFocuses: the centring holds with the corrected guard only, for the same reason as `Controller.LoadFocuses`.

## Findings

| source | as written | input that shows it | evidently intended | confidence | as-written member | corrected member |
|---|---|---|---|---|---|---|
| templates/basic/scripts/javascripts/map.js:344 | `!node_id in nodes` parses as `(!node_id) in nodes`, which tests for a node keyed "false" or "true" | nodes `{n1: …}` and id `"n2"`: the guard passes and reading `lon` of the missing node throws a TypeError. With nodes `{n1: …, "false": …}`, id `"n1"` is declined | `!(node_id in nodes)`: an absent id returns false without effect, a present id is centred on | not executed | Controller.FocusAtNode (Controller.FocusAbsentIdThrows, Controller.FocusPresentIdDeclined) | Controller.FocusAtNodeChecked |

=== FILE: controller.dfy ===
/**
 `NetworkMap` as a state machine (map.js:12-41, 205-356). The map library
 is reduced to the calls the map makes on it, recorded in order as effects;
 the asynchronous `$.get` is split into the request (`DownloadTopology`)
 and the success callback (`TopologyLoaded`), which receives the parsed
 payload and the `focus_selected` flag the request was made with.
 */
module Controller {
  import opened Text
  import Json
  import opened Filter
  import opened Features

  /** The zoom level `focusAtNode` centres at. */
  const FocusZoom: nat := 15

  datatype View = View(lon: real, lat: real, zoom: nat)

  /** A call on the map library, or the download request. */
  datatype Effect =
    | ClearNodes
    | ClearLinks
    | RemovePopup
    | Fetch(url: string, focusSelected: bool)
    | AddNodes(nodes: seq<NodeFeature>)
    | AddLinks(links: seq<LinkFeature>)
    | SetCenter(lon: real, lat: real, zoom: nat)
    | RedrawNodes
    | RedrawLinks

  /** The parts of a `NetworkMap` object the core reads and writes. */
  datatype NetworkMap = NetworkMap(
    topologyUrl: Option<string>,
    filter: Record,
    topology: Option<Topology>,
    popupOpen: bool,
    nodesLayer: seq<NodeFeature>,
    linksLayer: seq<LinkFeature>,
    view: Option<View>)

  datatype Step = Step(state: NetworkMap, effects: seq<Effect>)

  /** `!this._topology_url` is false: a URL is set and is not the empty string. */
  predicate HasUrl(m: NetworkMap) {
    m.topologyUrl.Some? && m.topologyUrl.value != ""
  }

  predicate IsClearing(e: Effect) {
    e.ClearNodes? || e.ClearLinks? || e.RemovePopup?
  }

  /**
   `_downloadTopology(focus_selected)`: with no URL nothing happens and the
   call returns false; otherwise both layers are emptied and an open popup
   removed, and only then is the request issued, carrying the filter's
   query and `focus_selected` (true when not given). That path has no
   `return` statement, so the call returns `undefined`, written `None`.
   */
  function DownloadTopology(m: NetworkMap, focusSelected: Option<bool>): (r: (Step, Option<bool>))
    ensures !HasUrl(m) ==> r.0 == Step(m, []) && r.1 == Some(false)
    ensures HasUrl(m) ==> r.1.None? && |r.0.effects| >= 3
    ensures HasUrl(m) ==>
      var s, es := r.0.state, r.0.effects;
      && s == m.(nodesLayer := [], linksLayer := [], popupOpen := false)
      && es[|es| - 1] == Fetch(TopologyUrl(m.topologyUrl.value, m.filter), focusSelected != Some(false))
      && (forall i :: 0 <= i < |es| - 1 ==> IsClearing(es[i]))
      && es[..|es| - 1] == [ClearNodes, ClearLinks] + (if m.popupOpen then [RemovePopup] else [])
  {
    if !HasUrl(m) then (Step(m, []), Some(false))
    else
      var focus := match focusSelected case None => true case Some(b) => b;
      var clear := [ClearNodes, ClearLinks] + (if m.popupOpen then [RemovePopup] else []);
      var url := TopologyUrl(m.topologyUrl.value, m.filter);
      (Step(m.(nodesLayer := [], linksLayer := [], popupOpen := false), clear + [Fetch(url, focus)]), None)
  }

  /** The node record stored under property `k` of the nodes object, if any. */
  function NodeAt(nodes: seq<(string, Node)>, k: string): Option<Node> {
    if |nodes| == 0 then None
    else if nodes[0].0 == k then Some(nodes[0].1)
    else NodeAt(nodes[1..], k)
  }

  predicate HasNode(nodes: seq<(string, Node)>, k: string) {
    NodeAt(nodes, k).Some?
  }

  /**
   How `focusAtNode` ends: it centred the map, it returned false at its
   guard, or it raised a TypeError (no snapshot yet, or no such node).
   */
  datatype FocusOutcome = Focused | Declined | Threw

  datatype Focus = Focus(step: Step, outcome: FocusOutcome)

  /**
   The guard of map.js:344 as it parses, `(!node_id) in nodes`: it asks
   whether the nodes object has a property named "true" (for a falsy id)
   or "false" (for a truthy id).
   */
  function GuardKey(id: Json.Value): string {
    Json.PropertyKey(Json.Bool(!Json.Truthy(id)))
  }

  /** Centre on a node at the focus zoom and redraw both layers. */
  function CentreOn(m: NetworkMap, n: Node): (r: Step)
    ensures r.state.view == Some(View(n.lon, n.lat, FocusZoom))
    ensures r.state == m.(view := r.state.view)
    ensures r.effects == [SetCenter(n.lon, n.lat, FocusZoom), RedrawNodes, RedrawLinks]
  {
    Step(m.(view := Some(View(n.lon, n.lat, FocusZoom))), [SetCenter(n.lon, n.lat, FocusZoom), RedrawNodes, RedrawLinks])
  }

  /** `focusAtNode(node_id)` as written. */
  function FocusAtNode(m: NetworkMap, id: Json.Value): (r: Focus)
    ensures r.outcome == Declined <==> m.topology.Some? && HasNode(m.topology.value.nodes, GuardKey(id))
    ensures r.outcome == Threw <==>
      m.topology.None? ||
      (!HasNode(m.topology.value.nodes, GuardKey(id)) && !HasNode(m.topology.value.nodes, Json.PropertyKey(id)))
    ensures r.outcome != Focused ==> r.step == Step(m, [])
    ensures r.outcome == Focused ==>
      m.topology.Some? && HasNode(m.topology.value.nodes, Json.PropertyKey(id))
      && var n := NodeAt(m.topology.value.nodes, Json.PropertyKey(id)).value;
      r.step == CentreOn(m, n)
  {
    match m.topology
    case None => Focus(Step(m, []), Threw)
    case Some(t) =>
      if HasNode(t.nodes, GuardKey(id)) then Focus(Step(m, []), Declined)
      else
        match NodeAt(t.nodes, Json.PropertyKey(id))
        case None => Focus(Step(m, []), Threw)
        case Some(n) => Focus(CentreOn(m, n), Focused)
  }

  /**
   `focusAtNode` with the guard its comment describes,
   `!(node_id in nodes)`: an id absent from the snapshot is declined.
   */
  function FocusAtNodeChecked(m: NetworkMap, id: Json.Value): (r: Focus)
    ensures m.topology.Some? && !HasNode(m.topology.value.nodes, Json.PropertyKey(id)) ==>
      r == Focus(Step(m, []), Declined)
    ensures m.topology.Some? && HasNode(m.topology.value.nodes, Json.PropertyKey(id)) ==>
      r.outcome == Focused && r.step == CentreOn(m, NodeAt(m.topology.value.nodes, Json.PropertyKey(id)).value)
  {
    match m.topology
    case None => Focus(Step(m, []), Threw)
    case Some(t) =>
      match NodeAt(t.nodes, Json.PropertyKey(id))
      case None => Focus(Step(m, []), Declined)
      case Some(n) => Focus(CentreOn(m, n), Focused)
  }

  /**
   The success callback of `_downloadTopology`: store the snapshot, add its
   node and link features to the layers, then focus `meta.selected` when
   asked to and the key is present. The focus step is the corrected
   `FocusAtNodeChecked`, so a stale `meta.selected` is declined.
   */
  function TopologyLoaded(m: NetworkMap, focusSelected: bool, t: Topology): (r: (Step, Option<FocusOutcome>))
    ensures |r.0.effects| >= 2
    ensures r.0.effects[..2] == [AddNodes(NodeFeatures(t.nodes)), AddLinks(LinkFeatures(t.links))]
    ensures r.0.state == m.(topology := Some(t),
                            nodesLayer := m.nodesLayer + NodeFeatures(t.nodes),
                            linksLayer := m.linksLayer + LinkFeatures(t.links),
                            view := r.0.state.view)
    ensures r.1.Some? <==> focusSelected && t.meta.selected.Some?
    ensures r.1 != Some(Threw)
    ensures r.1 == Some(Focused) <==>
      focusSelected && t.meta.selected.Some? && HasNode(t.nodes, Json.PropertyKey(t.meta.selected.value))
    ensures r.1 == Some(Focused) ==>
      var n := NodeAt(t.nodes, Json.PropertyKey(t.meta.selected.value)).value;
      && r.0.state.view == Some(View(n.lon, n.lat, FocusZoom))
      && r.0.effects[2..] == [SetCenter(n.lon, n.lat, FocusZoom), RedrawNodes, RedrawLinks]
    ensures r.1 != Some(Focused) ==> |r.0.effects| == 2 && r.0.state.view == m.view
  {
    var loaded := m.(topology := Some(t),
                     nodesLayer := m.nodesLayer + NodeFeatures(t.nodes),
                     linksLayer := m.linksLayer + LinkFeatures(t.links));
    var added := [AddNodes(NodeFeatures(t.nodes)), AddLinks(LinkFeatures(t.links))];
    if focusSelected && t.meta.selected.Some? then
      var f := FocusAtNodeChecked(loaded, t.meta.selected.value);
      (Step(f.step.state, added + f.step.effects), Some(f.outcome))
    else
      (Step(loaded, added), None)
  }

  /**
   `setFilter(visible_filter)`: the filter becomes the defaults overridden
   by the argument, then the topology is downloaded again without focusing.
   */
  function SetFilter(m: NetworkMap, p: Record): (r: Step)
    requires UniqueKeys(p)
    ensures r.state.filter == Merge(Defaults, p)
    ensures forall k :: Lookup(r.state.filter, k) == (if k in Keys(p) then Lookup(p, k) else Lookup(Defaults, k))
    ensures DefaultLayout(r.state.filter)
    ensures HasUrl(m) ==>
      && r.state == m.(filter := r.state.filter, nodesLayer := [], linksLayer := [], popupOpen := false)
      && |r.effects| > 0
      && r.effects[..|r.effects| - 1] == [ClearNodes, ClearLinks] + (if m.popupOpen then [RemovePopup] else [])
      && r.effects[|r.effects| - 1] == Fetch(TopologyUrl(m.topologyUrl.value, r.state.filter), false)
    ensures !HasUrl(m) ==> r.state == m.(filter := r.state.filter) && r.effects == []
  {
    DefaultsUnique();
    forall k ensures Lookup(Merge(Defaults, p), k) == (if k in Keys(p) then Lookup(p, k) else Lookup(Defaults, k)) {
      MergeLookup(Defaults, p, k);
    }
    MergeLayout(p);
    var merged := m.(filter := Merge(Defaults, p));
    assert HasUrl(merged) == HasUrl(m) && merged.topologyUrl == m.topologyUrl;
    DownloadTopology(merged, Some(false)).0
  }

  /**
   The constructor: the filter starts as a copy of the defaults, with no
   snapshot, popup or features, and a download (focusing) is started.
   */
  function Construct(topologyUrl: Option<string>): (r: Step)
    ensures r.state.filter == Defaults
    ensures r.state.topologyUrl == topologyUrl
    ensures r.state.topology.None? && r.state.nodesLayer == [] && r.state.linksLayer == []
    ensures !r.state.popupOpen && r.state.view.None?
    ensures topologyUrl.Some? && topologyUrl.value != "" ==>
      r.effects == [ClearNodes, ClearLinks, Fetch(TopologyUrl(topologyUrl.value, Defaults), true)]
    ensures !(topologyUrl.Some? && topologyUrl.value != "") ==> r.effects == []
  {
    DefaultsUnique();
    CopyIsIdentity(Defaults);
    var m := NetworkMap(topologyUrl, Extend([], Defaults), None, false, [], [], None);
    DownloadTopology(m, None).0
  }

  /** A map holding a snapshot with the given nodes, for the examples below. */
  function WithNodes(nodes: seq<(string, Node)>): NetworkMap {
    NetworkMap(Some("topology?"), Defaults, Some(Topology(nodes, [], Meta(None))), false, [], [], None)
  }

  /**
   As written, an id missing from the snapshot is not declined: the guard
   passes and reading the missing node's coordinates raises a TypeError.
   */
  lemma FocusAbsentIdThrows(n: Node)
    ensures FocusAtNode(WithNodes([("n1", n)]), Json.Str("n2")).outcome == Threw
  {
    assert GuardKey(Json.Str("n2")) == "false";
    var nodes := [("n1", n)];
    assert nodes[1..] == [];
    assert "n1" != "false" && "n1"[1] != "n2"[1];
    assert NodeAt(nodes, "false") == NodeAt(nodes[1..], "false") == None;
    assert NodeAt(nodes, "n2") == NodeAt(nodes[1..], "n2") == None;
  }

  /**
   As written, a node that is present is declined as soon as the snapshot
   also has a node under the key "false".
   */
  lemma FocusPresentIdDeclined(n: Node, other: Node)
    ensures HasNode(WithNodes([("n1", n), ("false", other)]).topology.value.nodes, "n1")
    ensures FocusAtNode(WithNodes([("n1", n), ("false", other)]), Json.Str("n1")).outcome == Declined
  {
    assert GuardKey(Json.Str("n1")) == "false";
    assert "n1" != "false";
    assert HasNode([("n1", n), ("false", other)], "false");
  }

  /**
   For an id the snapshot has, and no node under the guard's key, the guard
   as written and the intended membership test behave the same.
   */
  lemma FocusAgreesOnPresentIds(m: NetworkMap, id: Json.Value)
    requires m.topology.Some?
    requires HasNode(m.topology.value.nodes, Json.PropertyKey(id))
    requires !HasNode(m.topology.value.nodes, GuardKey(id))
    ensures FocusAtNode(m, id) == FocusAtNodeChecked(m, id)
    ensures FocusAtNode(m, id).outcome == Focused
  {
  }

  /**
   A snapshot naming a present node in `meta.selected`, loaded by a
   focusing request: the features are added, then the map centres once on
   that node and redraws both layers once.
   */
  lemma LoadFocuses(m: NetworkMap, t: Topology)
    requires t.meta.selected.Some?
    requires HasNode(t.nodes, Json.PropertyKey(t.meta.selected.value))
    ensures var (done, outcome) := TopologyLoaded(m, true, t);
      var n := NodeAt(t.nodes, Json.PropertyKey(t.meta.selected.value)).value;
      && outcome == Some(Focused)
      && done.effects == [AddNodes(NodeFeatures(t.nodes)), AddLinks(LinkFeatures(t.links)),
                          SetCenter(n.lon, n.lat, FocusZoom), RedrawNodes, RedrawLinks]
      && done.state.view == Some(View(n.lon, n.lat, FocusZoom))
  {
  }

  /**
   A snapshot whose `meta.selected` names no node: the features are added
   and nothing else happens.
   */
  lemma LoadDeclinesAbsent(m: NetworkMap, t: Topology)
    requires t.meta.selected.Some?
    requires !HasNode(t.nodes, Json.PropertyKey(t.meta.selected.value))
    ensures var (done, outcome) := TopologyLoaded(m, true, t);
      && outcome == Some(Declined)
      && done.effects == [AddNodes(NodeFeatures(t.nodes)), AddLinks(LinkFeatures(t.links))]
      && done.state.view == m.view
  {
  }

  /**
   A refresh whose snapshot names a present node in `meta.selected`: the
   layers are cleared before the request, so after the callback they hold
   exactly the snapshot's features, and the map is centred on that node.
   */
  lemma RefreshThenLoadFocuses(m: NetworkMap, t: Topology)
    requires HasUrl(m)
    requires t.meta.selected.Some?
    requires HasNode(t.nodes, Json.PropertyKey(t.meta.selected.value))
    ensures var (req, returned) := DownloadTopology(m, None);
      var fetch := req.effects[|req.effects| - 1];
      var (done, outcome) := TopologyLoaded(req.state, fetch.focusSelected, t);
      var n := NodeAt(t.nodes, Json.PropertyKey(t.meta.selected.value)).value;
      && returned.None?
      && fetch == Fetch(TopologyUrl(m.topologyUrl.value, m.filter), true)
      && outcome == Some(Focused)
      && done.state.nodesLayer == NodeFeatures(t.nodes)
      && done.state.linksLayer == LinkFeatures(t.links)
      && done.state.view == Some(View(n.lon, n.lat, FocusZoom))
  {
    var req := DownloadTopology(m, None).0;
    assert req.state.nodesLayer == [] && req.state.linksLayer == [];
    LoadFocuses(req.state, t);
    assert [] + NodeFeatures(t.nodes) == NodeFeatures(t.nodes);
    assert [] + LinkFeatures(t.links) == LinkFeatures(t.links);
  }

  /**
   Each `setFilter` starts again from the defaults: what an earlier call
   set is forgotten.
   */
  lemma SetFilterNotCumulative(m: NetworkMap, p1: Record, p2: Record)
    requires UniqueKeys(p1) && UniqueKeys(p2)
    ensures SetFilter(SetFilter(m, p1).state, p2).state.filter == SetFilter(m, p2).state.filter
  {
  }

  /**
   The refresh `setFilter` starts never focuses: whatever snapshot comes
   back, its callback only adds the features and leaves the view alone.
   */
  lemma SetFilterNeverFocuses(m: NetworkMap, p: Record, t: Topology)
    requires UniqueKeys(p) && HasUrl(m)
    ensures var r := SetFilter(m, p);
      var fetch := r.effects[|r.effects| - 1];
      var (done, outcome) := TopologyLoaded(r.state, fetch.focusSelected, t);
      && !fetch.focusSelected
      && outcome.None?
      && done.effects == [AddNodes(NodeFeatures(t.nodes)), AddLinks(LinkFeatures(t.links))]
      && done.state.view == m.view
  {
  }

  /**
   The worked example: setting `{unlinked: true}` and then `{client: false}`
   leaves unlinked back at its default, false.
   */
  lemma SetFilterExample(m: NetworkMap)
    ensures SetFilter(m, [("unlinked", true)]).state.filter
         == [("p2p", true), ("ap", true), ("client", true), ("unlinked", true)]
    ensures SetFilter(SetFilter(m, [("unlinked", true)]).state, [("client", false)]).state.filter
         == [("p2p", true), ("ap", true), ("client", false), ("unlinked", false)]
  {
    MergeOneKey("unlinked", true);
    MergeOneKey("client", false);
    PutExamples();
  }
}

=== FILE: features.dfy ===
/**
 The topology snapshot the map downloads and the GeoJSON features the
 success callback of `_downloadTopology` builds from it (map.js:239-296).
 Coordinates are copied, never projected, so they are plain reals here.
 */
module Features {
  import opened Text
  import Json

  /**
   A node record. `selected` is Some(v) exactly when the payload has the key
   `selected`, whatever its value v; `kind` is the `type` field.
   */
  datatype Node = Node(
    id: Json.Value,
    kind: string,
    name: string,
    lat: real,
    lon: real,
    area: Option<string>,
    url: Option<string>,
    selected: Option<Json.Value>,
    totalP2p: nat,
    totalApSubscriptions: nat,
    totalClients: nat)

  /** A link record: its own copy of both endpoints, and a status. */
  datatype Link = Link(id: Json.Value, lat1: real, lon1: real, lat2: real, lon2: real, status: Json.Value)

  /** `meta.selected`, when the payload names a node to focus. */
  datatype Meta = Meta(selected: Option<Json.Value>)

  /** The payload: `nodes` is an object keyed by node id (kept in order), `links` an array. */
  datatype Topology = Topology(nodes: seq<(string, Node)>, links: seq<Link>, meta: Meta)

  type Colour = string

  const SelectedColour: Colour := "#000000"
  const BackboneColour: Colour := "#f5c70c"
  const ApColour: Colour := "#61d961"
  const ClientColour: Colour := "#5858ff"
  const UnlinkedColour: Colour := "#ff3f4f"
  const ActiveLinkColour: Colour := "#00ff00"
  const InactiveLinkColour: Colour := "#ff0000"

  /** `colors_per_type[type]`; None stands for `undefined`. */
  function TypeColour(kind: string): (c: Option<Colour>)
    ensures c.None? <==> kind !in {"p2p", "p2p-ap", "ap", "client", "unlinked"}
    ensures c != Some(SelectedColour)
  {
    if kind == "p2p" || kind == "p2p-ap" then Some(BackboneColour)
    else if kind == "ap" then Some(ApColour)
    else if kind == "client" then Some(ClientColour)
    else if kind == "unlinked" then Some(UnlinkedColour)
    else None
  }

  /**
   The node colour: the type table, overridden when the key `selected` is
   present. No type is drawn black, so black marks the selected node.
   */
  function NodeColour(n: Node): (c: Option<Colour>)
    ensures c == Some(SelectedColour) <==> n.selected.Some?
    ensures c.None? <==> n.selected.None? && n.kind !in {"p2p", "p2p-ap", "ap", "client", "unlinked"}
  {
    if n.selected.Some? then Some(SelectedColour) else TypeColour(n.kind)
  }

  /** Green exactly when the status is the string "active" (loose `==` holds of nothing else here), red otherwise. */
  function LinkColour(l: Link): (c: Colour)
    ensures c == ActiveLinkColour <==> l.status == Json.Str("active")
    ensures c != ActiveLinkColour ==> c == InactiveLinkColour
  {
    if l.status == Json.Str("active") then ActiveLinkColour else InactiveLinkColour
  }

  /** A GeoJSON position, `[x, y]` = `[lon, lat]`. */
  datatype Position = Position(x: real, y: real)

  /** A point feature; `properties` is the node's own record, `color` the key added to it. */
  datatype NodeFeature = NodeFeature(id: Json.Value, point: Position, properties: Node, color: Option<Colour>)

  /** A line-string feature; `properties` is the link's own record, `color` the key added to it. */
  datatype LinkFeature = LinkFeature(id: Json.Value, path: seq<Position>, properties: Link, color: Colour)

  function NodeFeatureOf(n: Node): NodeFeature {
    NodeFeature(n.id, Position(n.lon, n.lat), n, NodeColour(n))
  }

  function LinkFeatureOf(l: Link): LinkFeature {
    LinkFeature(l.id, [Position(l.lon1, l.lat1), Position(l.lon2, l.lat2)], l, LinkColour(l))
  }

  /**
   `$.map(topology.nodes, ...)`: one point feature per node, in object order,
   carrying the node's id, its `[lon, lat]`, its whole record and its colour.
   */
  function NodeFeatures(nodes: seq<(string, Node)>): (fs: seq<NodeFeature>)
    ensures |fs| == |nodes|
    ensures forall i :: 0 <= i < |nodes| ==>
      && fs[i].id == nodes[i].1.id
      && fs[i].point == Position(nodes[i].1.lon, nodes[i].1.lat)
      && fs[i].properties == nodes[i].1
      && fs[i].color == NodeColour(nodes[i].1)
  {
    if |nodes| == 0 then [] else [NodeFeatureOf(nodes[0].1)] + NodeFeatures(nodes[1..])
  }

  /**
   `$.map(topology.links, ...)`: one two-point line feature per link, in
   array order, from `[lon1, lat1]` to `[lon2, lat2]`, carrying the link's
   id, its whole record and its colour.
   */
  function LinkFeatures(links: seq<Link>): (fs: seq<LinkFeature>)
    ensures |fs| == |links|
    ensures forall i :: 0 <= i < |links| ==>
      && fs[i].id == links[i].id
      && fs[i].path == [Position(links[i].lon1, links[i].lat1), Position(links[i].lon2, links[i].lat2)]
      && fs[i].properties == links[i]
      && fs[i].color == LinkColour(links[i])
  {
    if |links| == 0 then [] else [LinkFeatureOf(links[0])] + LinkFeatures(links[1..])
  }

  /**
   Without `selected`, the colour is the type table's: p2p and p2p-ap share
   the backbone colour, and every other type leaves the colour undefined.
   */
  lemma NodeColourByType(n: Node)
    requires n.selected.None?
    ensures n.kind in {"p2p", "p2p-ap"} ==> NodeColour(n) == Some("#f5c70c")
    ensures n.kind == "ap" ==> NodeColour(n) == Some("#61d961")
    ensures n.kind == "client" ==> NodeColour(n) == Some("#5858ff")
    ensures n.kind == "unlinked" ==> NodeColour(n) == Some("#ff3f4f")
    ensures NodeColour(n).None? <==> n.kind !in {"p2p", "p2p-ap", "ap", "client", "unlinked"}
  {
  }
}

=== FILE: filter.dfy ===
/**
 The node filter of `NetworkMap`: a JavaScript object from category names to
 booleans. Object properties keep insertion order, so a record is a sequence
 of (key, value) pairs; a JavaScript object never repeats a key, which is
 the `UniqueKeys` invariant below.
 */
module Filter {
  import opened Text

  type Key = string
  type Record = seq<(Key, bool)>

  /** The default filter of map.js:17-22, in declaration order. */
  const Defaults: Record := [("p2p", true), ("ap", true), ("client", true), ("unlinked", false)]

  /** The property names of `r`, in order. */
  function Keys(r: Record): (ks: seq<Key>)
    ensures |ks| == |r|
  {
    if |r| == 0 then [] else [r[0].0] + Keys(r[1..])
  }

  predicate UniqueKeys(r: Record) {
    |r| == 0 || (r[0].0 !in Keys(r[1..]) && UniqueKeys(r[1..]))
  }

  /** `r[k]`, or None when `r` has no property `k`. */
  function Lookup(r: Record, k: Key): Option<bool> {
    if |r| == 0 then None
    else if r[0].0 == k then Some(r[0].1)
    else Lookup(r[1..], k)
  }

  /** `r[k] = v`: overwrites `k` in place when present, appends it otherwise. */
  function Put(r: Record, k: Key, v: bool): (r': Record)
    ensures k in Keys(r) ==> Keys(r') == Keys(r)
    ensures k !in Keys(r) ==> r' == r + [(k, v)]
  {
    if |r| == 0 then [(k, v)]
    else if r[0].0 == k then [(k, v)] + r[1..]
    else [r[0]] + Put(r[1..], k, v)
  }

  /**
   `$.extend(target, src)`: assigns every property of `src` to `target`, in
   the order of `src`.
   */
  function Extend(target: Record, src: Record): Record
    decreases |src|
  {
    if |src| == 0 then target else Extend(Put(target, src[0].0, src[0].1), src[1..])
  }

  /** The value `s` gives `k`, or `fallback` when `s` has no property `k`. */
  function ValueOr(s: Record, k: Key, fallback: bool): bool {
    match Lookup(s, k)
    case Some(v) => v
    case None => fallback
  }

  /** The properties of `t`, in place, each taking the value `s` gives it if any. */
  function Overlay(t: Record, s: Record): (r: Record)
    ensures Keys(r) == Keys(t)
  {
    if |t| == 0 then [] else [(t[0].0, ValueOr(s, t[0].0, t[0].1))] + Overlay(t[1..], s)
  }

  /** The properties of `s` whose key is not among `ks`, in order. */
  function Fresh(s: Record, ks: seq<Key>): Record {
    if |s| == 0 then []
    else (if s[0].0 in ks then [] else [s[0]]) + Fresh(s[1..], ks)
  }

  // Facts about the helpers above, used by the shape lemma and the merge lemmas.

  lemma {:induction false} KeysConcat(a: Record, b: Record)
    ensures Keys(a + b) == Keys(a) + Keys(b)
  {
    if |a| == 0 {
      assert a + b == b;
    } else {
      assert (a + b)[1..] == a[1..] + b;
      KeysConcat(a[1..], b);
    }
  }

  lemma {:induction false} LookupAbsent(r: Record, k: Key)
    requires k !in Keys(r)
    ensures Lookup(r, k) == None
  {
    if |r| > 0 {
      LookupAbsent(r[1..], k);
    }
  }

  lemma {:induction false} LookupPresent(r: Record, k: Key)
    requires k in Keys(r)
    ensures Lookup(r, k).Some?
  {
    if r[0].0 != k {
      LookupPresent(r[1..], k);
    }
  }

  lemma {:induction false} LookupConcat(a: Record, b: Record, k: Key)
    ensures Lookup(a + b, k) == if k in Keys(a) then Lookup(a, k) else Lookup(b, k)
  {
    if |a| == 0 {
      assert a + b == b;
    } else {
      assert (a + b)[1..] == a[1..] + b;
      LookupConcat(a[1..], b, k);
    }
  }

  lemma {:induction false} UniqueConcat(a: Record, b: Record)
    requires UniqueKeys(a) && UniqueKeys(b)
    requires forall k :: k in Keys(a) ==> k !in Keys(b)
    ensures UniqueKeys(a + b)
  {
    if |a| > 0 {
      assert (a + b)[1..] == a[1..] + b;
      UniqueConcat(a[1..], b);
      KeysConcat(a[1..], b);
    } else {
      assert a + b == b;
    }
  }

  lemma {:induction false} PutUnique(r: Record, k: Key, v: bool)
    requires UniqueKeys(r)
    ensures UniqueKeys(Put(r, k, v))
  {
    if k !in Keys(r) {
      UniqueConcat(r, [(k, v)]);
    } else if r[0].0 != k {
      PutUnique(r[1..], k, v);
    }
  }

  lemma {:induction false} OverlayDropHead(t: Record, s: Record)
    requires |s| > 0 && s[0].0 !in Keys(t)
    ensures Overlay(t, s[1..]) == Overlay(t, s)
  {
    if |t| > 0 {
      OverlayDropHead(t[1..], s);
    }
  }

  lemma {:induction false} OverlayAppend(t: Record, p: (Key, bool), s: Record)
    ensures Overlay(t + [p], s) == Overlay(t, s) + [(p.0, ValueOr(s, p.0, p.1))]
  {
    if |t| == 0 {
      assert t + [p] == [p];
    } else {
      assert (t + [p])[1..] == t[1..] + [p];
      OverlayAppend(t[1..], p, s);
    }
  }

  lemma {:induction false} OverlayPutPresent(t: Record, s: Record)
    requires UniqueKeys(t) && UniqueKeys(s) && |s| > 0 && s[0].0 in Keys(t)
    ensures Overlay(Put(t, s[0].0, s[0].1), s[1..]) == Overlay(t, s)
  {
    var k, v := s[0].0, s[0].1;
    LookupAbsent(s[1..], k);
    if t[0].0 == k {
      OverlayDropHead(t[1..], s);
    } else {
      OverlayPutPresent(t[1..], s);
    }
  }

  lemma OverlayPutAbsent(t: Record, s: Record)
    requires UniqueKeys(s) && |s| > 0 && s[0].0 !in Keys(t)
    ensures Overlay(Put(t, s[0].0, s[0].1), s[1..]) == Overlay(t, s) + [s[0]]
  {
    LookupAbsent(s[1..], s[0].0);
    OverlayAppend(t, s[0], s[1..]);
    OverlayDropHead(t, s);
  }

  lemma {:induction false} FreshSkipsKey(s: Record, ks: seq<Key>, k: Key)
    requires k !in Keys(s)
    ensures Fresh(s, ks + [k]) == Fresh(s, ks)
  {
    if |s| > 0 {
      FreshSkipsKey(s[1..], ks, k);
    }
  }

  lemma KeysPutAbsent(t: Record, k: Key, v: bool)
    requires k !in Keys(t)
    ensures Keys(Put(t, k, v)) == Keys(t) + [k]
  {
    KeysConcat(t, [(k, v)]);
    assert Keys([(k, v)]) == [k];
  }

  /** One step of the shape lemma, for a source key the target lacks. */
  lemma ExtendStepAbsent(t: Record, s: Record)
    requires UniqueKeys(s) && |s| > 0 && s[0].0 !in Keys(t)
    ensures Overlay(Put(t, s[0].0, s[0].1), s[1..]) + Fresh(s[1..], Keys(Put(t, s[0].0, s[0].1)))
         == Overlay(t, s) + Fresh(s, Keys(t))
  {
    var k, v := s[0].0, s[0].1;
    var t', o, f := Put(t, k, v), Overlay(t, s), Fresh(s[1..], Keys(t));
    OverlayPutAbsent(t, s);
    assert Overlay(t', s[1..]) == o + [s[0]];
    KeysPutAbsent(t, k, v);
    FreshSkipsKey(s[1..], Keys(t), k);
    assert Fresh(s[1..], Keys(t')) == f;
    assert Fresh(s, Keys(t)) == [s[0]] + f;
    AppendAssoc(o, s[0], f);
  }

  /** One step of the shape lemma, for a source key the target already has. */
  lemma ExtendStepPresent(t: Record, s: Record)
    requires UniqueKeys(t) && UniqueKeys(s) && |s| > 0 && s[0].0 in Keys(t)
    ensures Overlay(Put(t, s[0].0, s[0].1), s[1..]) + Fresh(s[1..], Keys(Put(t, s[0].0, s[0].1)))
         == Overlay(t, s) + Fresh(s, Keys(t))
  {
    OverlayPutPresent(t, s);
    assert Fresh(s, Keys(t)) == Fresh(s[1..], Keys(t));
  }

  lemma AppendAssoc(o: Record, x: (Key, bool), f: Record)
    ensures (o + [x]) + f == o + ([x] + f)
  {
  }

  /**
   Reference description of `$.extend` on objects: the target's properties
   keep their places and take the source's value when the source has them;
   the source's other properties follow, in source order.
   */
  lemma {:induction false} ExtendShape(t: Record, s: Record)
    requires UniqueKeys(t) && UniqueKeys(s)
    ensures Extend(t, s) == Overlay(t, s) + Fresh(s, Keys(t))
    decreases |s|
  {
    if |s| == 0 {
      OverlayEmpty(t);
    } else {
      var k, v := s[0].0, s[0].1;
      PutUnique(t, k, v);
      ExtendShape(Put(t, k, v), s[1..]);
      assert Extend(t, s) == Extend(Put(t, k, v), s[1..]);
      if k in Keys(t) {
        ExtendStepPresent(t, s);
      } else {
        ExtendStepAbsent(t, s);
      }
    }
  }

  lemma {:induction false} OverlayEmpty(t: Record)
    ensures Overlay(t, []) == t
  {
    if |t| > 0 {
      OverlayEmpty(t[1..]);
    }
  }

  lemma {:induction false} FreshAll(s: Record)
    ensures Fresh(s, []) == s
  {
    if |s| > 0 {
      FreshAll(s[1..]);
    }
  }

  lemma {:induction false} FreshKeys(s: Record, ks: seq<Key>)
    requires UniqueKeys(s)
    ensures UniqueKeys(Fresh(s, ks))
    ensures forall k :: k in Keys(Fresh(s, ks)) ==> k in Keys(s) && k !in ks
  {
    if |s| > 0 {
      var rest := Fresh(s[1..], ks);
      FreshKeys(s[1..], ks);
      assert Keys(s) == [s[0].0] + Keys(s[1..]);
      if s[0].0 !in ks {
        assert Fresh(s, ks) == [s[0]] + rest;
        assert Keys([s[0]] + rest) == [s[0].0] + Keys(rest);
      } else {
        assert Fresh(s, ks) == rest;
      }
    }
  }

  lemma {:induction false} UniqueByKeys(a: Record, b: Record)
    requires Keys(a) == Keys(b)
    ensures UniqueKeys(a) == UniqueKeys(b)
  {
    if |a| > 0 {
      assert Keys(a[1..]) == Keys(a)[1..];
      assert Keys(b[1..]) == Keys(b)[1..];
      UniqueByKeys(a[1..], b[1..]);
    }
  }

  lemma {:induction false} LookupOverlay(t: Record, s: Record, k: Key)
    ensures k !in Keys(t) ==> Lookup(Overlay(t, s), k) == None
    ensures k in Keys(t) ==> Lookup(Overlay(t, s), k) == Some(ValueOr(s, k, ValueOr(t, k, false)))
  {
    if |t| > 0 && t[0].0 != k {
      LookupOverlay(t[1..], s, k);
    } else if |t| == 0 {
      LookupAbsent(Overlay(t, s), k);
    }
  }

  lemma {:induction false} LookupFresh(s: Record, ks: seq<Key>, k: Key)
    requires k !in ks
    ensures Lookup(Fresh(s, ks), k) == Lookup(s, k)
  {
    if |s| > 0 {
      LookupFresh(s[1..], ks, k);
      LookupConcat(if s[0].0 in ks then [] else [s[0]], Fresh(s[1..], ks), k);
    }
  }

  /** `$.extend({}, defaults, visible_filter)`, the filter `setFilter` installs. */
  function Merge(defaults: Record, p: Record): Record {
    Extend(Extend([], defaults), p)
  }

  /** Copying an object with `$.extend({}, d)` gives the same properties in the same order. */
  lemma CopyIsIdentity(d: Record)
    requires UniqueKeys(d)
    ensures Extend([], d) == d
  {
    ExtendShape([], d);
    FreshAll(d);
  }

  /** Merging a single property into the defaults is one assignment on a copy of them. */
  lemma MergeOneKey(k: Key, v: bool)
    ensures Merge(Defaults, [(k, v)]) == Put(Defaults, k, v)
  {
    DefaultsUnique();
    CopyIsIdentity(Defaults);
    ExtendOne(Defaults, k, v);
  }

  lemma ExtendOne(t: Record, k: Key, v: bool)
    ensures Extend(t, [(k, v)]) == Put(t, k, v)
  {
    assert [(k, v)][1..] == [];
  }

  lemma DefaultsUnique()
    ensures UniqueKeys(Defaults)
  {
    var d := Defaults;
    assert d[1..][1..][1..][1..] == [];
    assert "p2p" != "ap" && "p2p" != "client" && "p2p" != "unlinked";
    assert "ap" != "client" && "ap" != "unlinked" && "client" != "unlinked";
  }

  /** Two assignments on the defaults, worked out. */
  lemma PutExamples()
    ensures Put(Defaults, "unlinked", true) == [("p2p", true), ("ap", true), ("client", true), ("unlinked", true)]
    ensures Put(Defaults, "client", false) == [("p2p", true), ("ap", true), ("client", false), ("unlinked", false)]
  {
    assert "unlinked" != "p2p" && "unlinked" != "ap" && "unlinked" != "client";
    assert "client" != "p2p" && "client" != "ap";
    assert Defaults[1..][1..][1..][1..] == [];
  }

  /**
   The merged filter lists every default key in default order, each with the
   argument's value when the argument has it, followed by the argument's
   other keys in argument order; it never repeats a key.
   */
  lemma MergeShape(d: Record, p: Record)
    requires UniqueKeys(d) && UniqueKeys(p)
    ensures Merge(d, p) == Overlay(d, p) + Fresh(p, Keys(d))
    ensures Keys(Merge(d, p)) == Keys(d) + Keys(Fresh(p, Keys(d)))
    ensures UniqueKeys(Merge(d, p))
  {
    CopyIsIdentity(d);
    ExtendShape(d, p);
    KeysConcat(Overlay(d, p), Fresh(p, Keys(d)));
    FreshKeys(p, Keys(d));
    UniqueByKeys(Overlay(d, p), d);
    UniqueConcat(Overlay(d, p), Fresh(p, Keys(d)));
  }

  /** Right-biased merge: the argument wins on every key it has, the defaults fill the rest. */
  lemma MergeLookup(d: Record, p: Record, k: Key)
    requires UniqueKeys(d) && UniqueKeys(p)
    ensures Lookup(Merge(d, p), k) == if k in Keys(p) then Lookup(p, k) else Lookup(d, k)
  {
    MergeShape(d, p);
    LookupConcat(Overlay(d, p), Fresh(p, Keys(d)), k);
    LookupOverlay(d, p, k);
    if k in Keys(d) {
      LookupPresent(d, k);
      if k in Keys(p) {
        LookupPresent(p, k);
      } else {
        LookupAbsent(p, k);
      }
    } else {
      LookupFresh(p, Keys(d), k);
      LookupAbsent(d, k);
      if k !in Keys(p) {
        LookupAbsent(p, k);
      }
    }
  }

  /**
   A filter laid out as `setFilter` leaves it: no repeated key, and the
   default keys first, in default order.
   */
  predicate DefaultLayout(f: Record) {
    UniqueKeys(f) && |f| >= |Defaults| && Keys(f[..|Defaults|]) == Keys(Defaults)
  }

  lemma {:induction false} OverlayPrefix(t: Record, a: Record, b: Record)
    requires UniqueKeys(a + b) && Keys(t) == Keys(a)
    ensures Overlay(t, a + b) == a
  {
    if |t| > 0 {
      var s := a + b;
      assert s[1..] == a[1..] + b;
      assert Keys(t[1..]) == Keys(t)[1..];
      KeysConcat(a[1..], b);
      OverlayPrefix(t[1..], a[1..], b);
      OverlayDropHead(t[1..], s);
    }
  }

  lemma {:induction false} UniqueSuffixOutside(a: Record, b: Record)
    requires UniqueKeys(a + b)
    ensures forall i :: 0 <= i < |b| ==> b[i].0 !in Keys(a)
  {
    if |a| > 0 {
      assert (a + b)[1..] == a[1..] + b;
      UniqueSuffixOutside(a[1..], b);
      KeysConcat(a[1..], b);
      forall i | 0 <= i < |b|
        ensures b[i].0 != a[0].0
      {
        KeysIndex(b, i);
        assert Keys(a[1..] + b)[|a| - 1 + i] == b[i].0;
      }
    }
  }

  lemma {:induction false} KeysIndex(r: Record, i: nat)
    requires i < |r|
    ensures Keys(r)[i] == r[i].0
  {
    if i > 0 {
      KeysIndex(r[1..], i - 1);
    }
  }
  /** In a record without repeated keys, each entry is what its key looks up. */
  lemma {:induction false} LookupAt(r: Record, i: nat)
    requires UniqueKeys(r) && i < |r|
    ensures Lookup(r, r[i].0) == Some(r[i].1)
  {
    if i > 0 {
      KeysIndex(r[1..], i - 1);
      LookupAt(r[1..], i - 1);
    }
  }


  lemma {:induction false} FreshConcat(a: Record, b: Record, ks: seq<Key>)
    ensures Fresh(a + b, ks) == Fresh(a, ks) + Fresh(b, ks)
  {
    if |a| == 0 {
      assert a + b == b;
    } else {
      assert (a + b)[1..] == a[1..] + b;
      FreshConcat(a[1..], b, ks);
    }
  }

  lemma {:induction false} FreshAllOutside(s: Record, ks: seq<Key>)
    requires forall i :: 0 <= i < |s| ==> s[i].0 !in ks
    ensures Fresh(s, ks) == s
  {
    if |s| > 0 {
      FreshAllOutside(s[1..], ks);
    }
  }

  lemma {:induction false} FreshWithin(s: Record, ks: seq<Key>)
    requires forall i :: 0 <= i < |s| ==> s[i].0 in ks
    ensures Fresh(s, ks) == []
  {
    if |s| > 0 {
      FreshWithin(s[1..], ks);
    }
  }

  lemma FreshOfLaidOut(a: Record, b: Record, ks: seq<Key>)
    requires UniqueKeys(a + b) && Keys(a) == ks
    ensures Fresh(a + b, ks) == b
  {
    FreshConcat(a, b, ks);
    forall i | 0 <= i < |a|
      ensures a[i].0 in ks
    {
      KeysIndex(a, i);
    }
    FreshWithin(a, ks);
    UniqueSuffixOutside(a, b);
    FreshAllOutside(b, ks);
  }

  /** Merging a filter that already has the default layout against the defaults changes nothing. */
  lemma MergeLaidOut(f: Record)
    requires DefaultLayout(f)
    ensures Merge(Defaults, f) == f
  {
    var n := |Defaults|;
    var a, b := f[..n], f[n..];
    assert f == a + b;
    MergeShape(Defaults, f);
    OverlayPrefix(Defaults, a, b);
    FreshOfLaidOut(a, b, Keys(Defaults));
  }

  /** Every filter `setFilter` installs has the default layout. */
  lemma MergeLayout(p: Record)
    requires UniqueKeys(p)
    ensures DefaultLayout(Merge(Defaults, p))
  {
    DefaultsUnique();
    MergeShape(Defaults, p);
    var o := Overlay(Defaults, p);
    var m := Merge(Defaults, p);
    assert |o| == |Keys(o)| == |Keys(Defaults)| == |Defaults|;
    assert m == o + Fresh(p, Keys(Defaults));
    assert m[..|Defaults|] == o;
    assert Keys(m[..|Defaults|]) == Keys(Defaults);
  }

  /** The keys `_topologyUrl` lists: those whose value is truthy, in filter order. */
  function TruthyKeys(f: Record): seq<Key> {
    if |f| == 0 then [] else (if f[0].1 then [f[0].0] else []) + TruthyKeys(f[1..])
  }

  /** A key is listed exactly when the filter maps it to true. */
  lemma {:induction false} TruthyKeysMembership(f: Record, k: Key)
    requires UniqueKeys(f)
    ensures k in TruthyKeys(f) <==> Lookup(f, k) == Some(true)
  {
    if |f| > 0 {
      TruthyKeysMembership(f[1..], k);
      if f[0].0 == k {
        TruthyKeysWithin(f[1..]);
      }
    }
  }

  lemma {:induction false} TruthyKeysWithin(f: Record)
    ensures forall k :: k in TruthyKeys(f) ==> k in Keys(f)
  {
    if |f| > 0 {
      TruthyKeysWithin(f[1..]);
    }
  }

  /** `_topologyUrl`: the base URL, `&filter=`, then the listed keys joined by commas. */
  function TopologyUrl(base: string, f: Record): string {
    base + "&filter=" + Join(TruthyKeys(f), ",")
  }

  predicate CommaFree(ks: seq<Key>) {
    forall i :: 0 <= i < |ks| ==> ',' !in ks[i]
  }

  lemma {:induction false} TruthyKeysCommaFree(f: Record)
    requires CommaFree(Keys(f))
    ensures CommaFree(TruthyKeys(f))
  {
    if |f| > 0 {
      assert Keys(f[1..]) == Keys(f)[1..];
      TruthyKeysCommaFree(f[1..]);
      assert Keys(f)[0] == f[0].0;
    }
  }

  /**
   The URL is the base followed by `&filter=`; splitting the rest on commas
   gives back the listed keys, and the rest is empty when no key is truthy.
   */
  lemma TopologyUrlQuery(base: string, f: Record)
    requires CommaFree(Keys(f))
    ensures var u := TopologyUrl(base, f);
      && u[..|base| + 8] == base + "&filter="
      && (|TruthyKeys(f)| == 0 ==> u == base + "&filter=")
      && (|TruthyKeys(f)| > 0 ==> Split(u[|base| + 8..], ',') == TruthyKeys(f))
  {
    var u := TopologyUrl(base, f);
    var q := Join(TruthyKeys(f), ",");
    assert u == (base + "&filter=") + q;
    assert u[|base| + 8..] == q;
    if |TruthyKeys(f)| > 0 {
      TruthyKeysCommaFree(f);
      SplitJoinRoundTrip(TruthyKeys(f), ',');
    }
  }

  /** The query of the default filter lists p2p, ap and client, and leaves unlinked out. */
  lemma DefaultQuery(base: string)
    ensures TopologyUrl(base, Defaults) == base + "&filter=p2p,ap,client"
  {
    assert Defaults[1..][1..][1..][1..] == [];
    assert TruthyKeys(Defaults) == ["p2p", "ap", "client"];
    var ks := ["p2p", "ap", "client"];
    assert ks[1..][1..] == ["client"];
    assert Join(ks, ",") == "p2p" + "," + ("ap" + "," + "client");
    assert "p2p" + "," + ("ap" + "," + "client") == "p2p,ap,client";
  }

  /** A filter with every key false still carries the parameter, with an empty value. */
  lemma EmptyQuery(base: string)
    ensures TopologyUrl(base, [("p2p", false), ("ap", false), ("client", false), ("unlinked", false)]) == base + "&filter="
  {
    var f := [("p2p", false), ("ap", false), ("client", false), ("unlinked", false)];
    assert f[1..][1..][1..][1..] == [];
    assert TruthyKeys(f) == [];
  }

  /** Only the true keys are listed, in filter order. */
  lemma MixedQuery(base: string)
    ensures TopologyUrl(base, [("p2p", true), ("ap", false), ("client", true), ("unlinked", false)])
         == base + "&filter=p2p,client"
  {
    var f := [("p2p", true), ("ap", false), ("client", true), ("unlinked", false)];
    assert f[1..][1..][1..][1..] == [];
    assert TruthyKeys(f[1..][1..][1..]) == [];
    assert TruthyKeys(f[1..][1..]) == ["client"];
    assert TruthyKeys(f[1..]) == ["client"];
    assert TruthyKeys(f) == ["p2p", "client"];
    var ks := ["p2p", "client"];
    assert ks[1..] == ["client"];
    assert Join(ks, ",") == "p2p" + "," + "client";
    assert "p2p" + "," + "client" == "p2p,client";
  }
}

=== FILE: filtercontrol.dfy ===
/**
 `NetworkMapControlNodeFilter` (map.js:359-425): one button per known
 filter key, highlighted ("active") while that kind of node is shown. The
 control's state is the set of highlighted buttons; the DOM elements and
 their captions are not modelled. `getFilter()` hands out the map's live
 filter object itself, so reads and writes through it are reads and
 writes of `m.filter`.
 */
module FilterControl {
  import opened Text
  import opened Filter
  import Controller

  /** The keys of `_valid_filters`, one button each, in order. */
  const Buttons: seq<Key> := ["p2p", "ap", "client", "unlinked"]

  /** The buttons are exactly the keys of the default filter. */
  lemma ButtonsAreDefaultKeys()
    ensures Keys(Defaults) == Buttons
  {
    assert Defaults[1..][1..][1..][1..] == [];
  }

  /**
   `_loadState`: walk the map's filter in order; a key with a button
   highlights it when the value is true and clears it otherwise; a key
   without a button selects no element and changes nothing.
   */
  function LoadState(f: Record, active: set<Key>): set<Key> {
    if |f| == 0 then active
    else
      var k := f[0].0;
      var next := if k !in Buttons then active else if f[0].1 then active + {k} else active - {k};
      LoadState(f[1..], next)
  }

  /**
   After loading, a button is highlighted exactly when the filter has its
   key set to true; a button whose key the filter lacks keeps its state.
   */
  lemma {:induction false} LoadStateMembership(f: Record, active: set<Key>, k: Key)
    requires UniqueKeys(f)
    ensures k in LoadState(f, active) <==>
      if k in Buttons && k in Keys(f) then Lookup(f, k) == Some(true) else k in active
  {
    if |f| > 0 {
      var next := if f[0].0 !in Buttons then active else if f[0].1 then active + {f[0].0} else active - {f[0].0};
      LoadStateMembership(f[1..], next, k);
      if f[0].0 == k {
        LookupAbsent(f[1..], k);
      }
    }
  }

  /** The button state `_saveState` gives key `k`: false unless it has a highlighted button. */
  predicate Shown(active: set<Key>, k: Key) {
    k in Buttons && k in active
  }

  /**
   The loop of `_saveState` on the live filter object: every key it already
   has is overwritten in place with its button state, so the order of the
   keys is kept.
   */
  function SaveValues(f: Record, active: set<Key>): (g: Record)
    ensures |g| == |f|
  {
    if |f| == 0 then [] else [(f[0].0, Shown(active, f[0].0))] + SaveValues(f[1..], active)
  }

  /** The overwritten filter has the same keys, in the same order, and reads back the button states. */
  lemma {:induction false} SaveValuesLookup(f: Record, active: set<Key>, k: Key)
    ensures Keys(SaveValues(f, active)) == Keys(f)
    ensures Lookup(SaveValues(f, active), k) == if k in Keys(f) then Some(Shown(active, k)) else None
  {
    if |f| > 0 {
      SaveValuesLookup(f[1..], active, k);
    }
  }

  lemma SaveValuesKeys(f: Record, active: set<Key>)
    requires UniqueKeys(f)
    ensures Keys(SaveValues(f, active)) == Keys(f)
    ensures UniqueKeys(SaveValues(f, active))
  {
    SaveValuesLookup(f, active, "");
    UniqueByKeys(SaveValues(f, active), f);
  }

  /**
   `_saveState`: overwrite the filter with the button states and hand it to
   `setFilter`, which merges it over the defaults and downloads again
   without focusing. Every key the map's filter has reads back its button
   state; a default key it lacks reads back its default.
   */
  function SaveState(m: Controller.NetworkMap, active: set<Key>): (r: Controller.Step)
    requires UniqueKeys(m.filter)
    ensures forall k ::
      Lookup(r.state.filter, k) == if k in Keys(m.filter) then Some(Shown(active, k)) else Lookup(Defaults, k)
    ensures r.state.filter == Merge(Defaults, SaveValues(m.filter, active)) && DefaultLayout(r.state.filter)
    ensures Controller.HasUrl(m) ==>
      && r.state == m.(filter := r.state.filter, nodesLayer := [], linksLayer := [], popupOpen := false)
      && |r.effects| > 0
      && r.effects[|r.effects| - 1] == Controller.Fetch(TopologyUrl(m.topologyUrl.value, r.state.filter), false)
    ensures !Controller.HasUrl(m) ==> r.state == m.(filter := r.state.filter) && r.effects == []
  {
    SaveValuesKeys(m.filter, active);
    var g := SaveValues(m.filter, active);
    forall k ensures Lookup(g, k) == if k in Keys(m.filter) then Some(Shown(active, k)) else None {
      SaveValuesLookup(m.filter, active, k);
    }
    Controller.SetFilter(m.(filter := g), g)
  }

  /** `toggleClass('active')` on one button. */
  function Toggle(active: set<Key>, b: Key): (a: set<Key>)
    ensures b in a <==> b !in active
    ensures forall k :: k != b ==> (k in a <==> k in active)
  {
    if b in active then active - {b} else active + {b}
  }

  /**
   A click on button `b`: toggle it, then save the state into the map. Only
   the clicked button changes, and every key of the filter then reads back
   the new button state.
   */
  function Click(m: Controller.NetworkMap, active: set<Key>, b: Key): (r: (Controller.Step, set<Key>))
    requires UniqueKeys(m.filter)
    ensures b in r.1 <==> b !in active
    ensures forall k :: k != b ==> (k in r.1 <==> k in active)
    ensures forall k :: k in Keys(m.filter) ==> Lookup(r.0.state.filter, k) == Some(Shown(r.1, k))
    ensures r.0.state.filter == Merge(Defaults, SaveValues(m.filter, r.1))
    ensures Controller.HasUrl(m) ==>
      && |r.0.effects| > 0
      && r.0.effects[|r.0.effects| - 1] == Controller.Fetch(TopologyUrl(m.topologyUrl.value, r.0.state.filter), false)
  {
    var next := Toggle(active, b);
    (SaveState(m, next), next)
  }

  /** The control as constructed on a map: no button highlighted, then `_loadState`. */
  function Attach(m: Controller.NetworkMap): set<Key> {
    LoadState(m.filter, {})
  }

  /**
   The control and the map agree: the filter has the default keys first, a
   button is highlighted exactly when its key is true, and every key
   without a button (kept from a `setFilter` argument) is false.
   */
  ghost predicate InSync(f: Record, active: set<Key>) {
    && DefaultLayout(f)
    && (forall k :: k in active <==> k in Buttons && Lookup(f, k) == Some(true))
    && (forall k :: k in Keys(f) && k !in Buttons ==> Lookup(f, k) == Some(false))
  }

  /** A filter with the default layout lists the buttons first, so it has every button key. */
  lemma LaidOutKeys(f: Record)
    requires DefaultLayout(f)
    ensures Keys(f)[..|Buttons|] == Buttons
    ensures forall k :: k in Buttons ==> k in Keys(f)
  {
    ButtonsAreDefaultKeys();
    assert f == f[..|Defaults|] + f[|Defaults|..];
    KeysConcat(f[..|Defaults|], f[|Defaults|..]);
  }

  /** Overwriting the values keeps the default layout. */
  lemma SaveValuesLayout(f: Record, active: set<Key>)
    requires DefaultLayout(f)
    ensures DefaultLayout(SaveValues(f, active))
  {
    var g := SaveValues(f, active);
    SaveValuesKeys(f, active);
    ButtonsAreDefaultKeys();
    LaidOutKeys(f);
    assert g == g[..|Defaults|] + g[|Defaults|..];
    KeysConcat(g[..|Defaults|], g[|Defaults|..]);
    assert Keys(g[..|Defaults|]) == Keys(g)[..|Defaults|];
  }

  /**
   A control attached to a map whose filter has the default layout, with
   every key outside the buttons false, starts in sync with it.
   */
  lemma AttachInSync(m: Controller.NetworkMap)
    requires DefaultLayout(m.filter)
    requires forall k :: k in Keys(m.filter) && k !in Buttons ==> Lookup(m.filter, k) == Some(false)
    ensures InSync(m.filter, Attach(m))
  {
    LaidOutKeys(m.filter);
    forall k ensures k in Attach(m) <==> k in Buttons && Lookup(m.filter, k) == Some(true) {
      LoadStateMembership(m.filter, {}, k);
    }
  }

  /** In particular a control attached to a freshly constructed map. */
  lemma AttachToNewMap(url: Option<string>)
    ensures InSync(Controller.Construct(url).state.filter, Attach(Controller.Construct(url).state))
  {
    var m := Controller.Construct(url).state;
    ButtonsAreDefaultKeys();
    DefaultsUnique();
    assert m.filter[..|Defaults|] == Defaults;
    AttachInSync(m);
  }

  /**
   When the filter has the default layout, saving writes the button states
   over it and the merge with the defaults adds nothing.
   */
  lemma SaveOverButtons(m: Controller.NetworkMap, active: set<Key>)
    requires DefaultLayout(m.filter)
    ensures SaveState(m, active).state.filter == SaveValues(m.filter, active)
  {
    SaveValuesLayout(m.filter, active);
    MergeLaidOut(SaveValues(m.filter, active));
  }

  /** Writing toggled button states over an in-sync filter gives a filter in sync with them. */
  lemma ToggleInSync(f: Record, active: set<Key>, b: Key)
    requires InSync(f, active) && b in Buttons
    ensures InSync(SaveValues(f, Toggle(active, b)), Toggle(active, b))
    ensures forall k :: k != b ==> Lookup(SaveValues(f, Toggle(active, b)), k) == Lookup(f, k)
  {
    var next := Toggle(active, b);
    SaveValuesLayout(f, next);
    LaidOutKeys(f);
    var g := SaveValues(f, next);
    forall k ensures k in next <==> k in Buttons && Lookup(g, k) == Some(true) {
      SaveValuesLookup(f, next, k);
    }
    forall k | k in Keys(g) && k !in Buttons
      ensures Lookup(g, k) == Some(false)
    {
      SaveValuesLookup(f, next, k);
    }
    forall k | k != b
      ensures Lookup(g, k) == Lookup(f, k)
    {
      SaveValuesLookup(f, next, k);
      if k in Keys(f) {
        LookupPresent(f, k);
        if k in Buttons {
          assert k in next <==> k in active;
          if Lookup(f, k).value {
            assert Lookup(f, k) == Some(true);
          } else {
            assert Lookup(f, k) == Some(false);
          }
        }
      } else {
        LookupAbsent(f, k);
      }
    }
  }

  /**
   Every click keeps the control and the map in sync: the clicked key is
   flipped (on exactly when it was off) and every other key is unchanged.
   */
  lemma ClickKeepsSync(m: Controller.NetworkMap, active: set<Key>, b: Key)
    requires InSync(m.filter, active) && b in Buttons
    ensures var (step, next) := Click(m, active, b);
      && InSync(step.state.filter, next)
      && (Lookup(step.state.filter, b) == Some(true) <==> b !in active)
      && forall k :: k != b ==> Lookup(step.state.filter, k) == Lookup(m.filter, k)
  {
    SaveOverButtons(m, Toggle(active, b));
    ToggleInSync(m.filter, active, b);
  }

  /**
   Loading the map's filter into the control and saving it straight back
   gives the same filter, provided the filter has the default layout and
   every key it sets to true has a button.
   */
  lemma LoadSaveRoundTrip(m: Controller.NetworkMap, active: set<Key>)
    requires DefaultLayout(m.filter)
    requires forall k :: Lookup(m.filter, k) == Some(true) ==> k in Buttons
    ensures SaveState(m, LoadState(m.filter, active)).state.filter == m.filter
  {
    var f := m.filter;
    var loaded := LoadState(f, active);
    var g := SaveValues(f, loaded);
    forall i | 0 <= i < |f|
      ensures g[i] == f[i]
    {
      var k := f[i].0;
      SaveValuesAt(f, loaded, i);
      LookupAt(f, i);
      KeysIndex(f, i);
      LoadStateMembership(f, active, k);
      assert Lookup(f, k) == Some(f[i].1);
      assert Shown(loaded, k) == f[i].1;
    }
    assert g == f;
    MergeLaidOut(f);
  }

  /** Entry `i` of the overwritten filter is entry `i`'s key with its button state. */
  lemma {:induction false} SaveValuesAt(f: Record, active: set<Key>, i: nat)
    requires i < |f|
    ensures SaveValues(f, active)[i] == (f[i].0, Shown(active, f[i].0))
  {
    if i > 0 {
      SaveValuesAt(f[1..], active, i - 1);
    }
  }
}

=== FILE: json.dfy ===
/**
 The few JSON values the topology payload carries in the fields the map
 reads, with JavaScript's truthiness and property-key conversion.
 Numbers are integers here.
 */
module Json {
  import opened Text

  datatype Value = Null | Bool(b: bool) | Num(n: int) | Str(s: string)

  /** JavaScript truthiness: `false`, `0`, `""` and `null` are falsy. */
  predicate Truthy(v: Value) {
    match v
    case Null => false
    case Bool(b) => b
    case Num(n) => n != 0
    case Str(s) => s != ""
  }

  /** The string a value becomes when used as a property name (`obj[v]`, `v in obj`). */
  function PropertyKey(v: Value): string {
    match v
    case Null => "null"
    case Bool(b) => if b then "true" else "false"
    case Num(n) => if n < 0 then "-" + NatToDecimal(-n) else NatToDecimal(n)
    case Str(s) => s
  }
}

=== FILE: summary.dfy ===
/**
 The "Links" line of the node popup (map.js:188-200): the total link count,
 then, when any of the three counts is positive, a parenthesised breakdown
 of the positive ones in the fixed order PtP, Clients, AP client.
 A parser for the same format is given as the summary's inverse.
 */
module Summary {
  import opened Text
  import Features

  /** The breakdown labels, in the order the popup lists them. */
  const Labels: seq<string> := ["PtP", "Clients", "AP client"]

  /** The counts the popup reads, in label order. */
  function Counts(p2p: nat, apSubscriptions: nat, clients: nat): seq<nat> {
    [p2p, clients, apSubscriptions]
  }

  /** One `"Label: n"` entry per positive count, in label order. */
  function Entries(labels: seq<string>, counts: seq<nat>): seq<string>
    requires |labels| == |counts|
  {
    if |labels| == 0 then []
    else
      var first := if counts[0] > 0 then [labels[0] + ": " + NatToDecimal(counts[0])] else [];
      first + Entries(labels[1..], counts[1..])
  }

  /** The popup's links text for a node with the given counters. */
  function LinksSummary(p2p: nat, apSubscriptions: nat, clients: nat): string {
    var extra := Entries(Labels, Counts(p2p, apSubscriptions, clients));
    NatToDecimal(p2p + apSubscriptions + clients)
      + (if |extra| > 0 then " (" + Join(extra, ", ") + ")" else "")
  }

  /** The links text of a node feature, from the counters its record carries. */
  function NodeLinksSummary(n: Features.Node): string {
    LinksSummary(n.totalP2p, n.totalApSubscriptions, n.totalClients)
  }

  /** What a summary line says: the total and each count (0 when its entry is absent). */
  datatype Reading = Reading(total: nat, counts: seq<nat>)

  function StartsWith(s: string, prefix: string): bool {
    |prefix| <= |s| && s[..|prefix|] == prefix
  }

  /** Puts `n` in front of a successful reading. */
  function Prepend(n: nat, o: Option<seq<nat>>): Option<seq<nat>> {
    match o
    case None => None
    case Some(ns) => Some([n] + ns)
  }

  /** Reads the number at the front of `s` and returns it with what follows; None without a leading digit. */
  function ReadCount(s: string): Option<(nat, string)> {
    var digits := DigitPrefix(s);
    if |digits| == 0 then None else Some((DecimalToNat(digits), s[|digits|..]))
  }

  /**
   Reads the entries of a breakdown, expecting the labels in the given
   order; a label whose entry is missing reads as 0.
   */
  function ParseEntries(s: string, labels: seq<string>): Option<seq<nat>>
    decreases |labels|
  {
    if |labels| == 0 then
      (if s == "" then Some([]) else None)
    else
      var head := labels[0] + ": ";
      if !StartsWith(s, head) then Prepend(0, ParseEntries(s, labels[1..]))
      else
        match ReadCount(s[|head|..])
        case None => None
        case Some((n, rest)) =>
          if rest == "" then Prepend(n, ParseEntries("", labels[1..]))
          else if StartsWith(rest, ", ") then Prepend(n, ParseEntries(rest[2..], labels[1..]))
          else None
  }

  /** Reads a links summary back into its total and its three counts. */
  function ParseSummary(s: string): Option<Reading> {
    match ReadCount(s)
    case None => None
    case Some((total, rest)) =>
      if rest == "" then Some(Reading(total, [0, 0, 0]))
      else if |rest| >= 3 && rest[..2] == " (" && rest[|rest| - 1] == ')' then
        match ParseEntries(rest[2..|rest| - 1], Labels)
        case None => None
        case Some(ns) => Some(Reading(total, ns))
      else None
  }

  /** A numeral followed by a non-digit reads back as its value and that remainder. */
  lemma ReadCountOf(n: nat, rest: string)
    requires rest == "" || !IsDigit(rest[0])
    ensures ReadCount(NatToDecimal(n) + rest) == Some((n, rest))
  {
    var d := NatToDecimal(n);
    DigitPrefixOfNumeral(d, rest);
    DecimalRoundTrip(n);
    assert (d + rest)[|d|..] == rest;
  }

  /** Labels are non-empty and are told apart by their first character. */
  predicate DistinctLabels(labels: seq<string>) {
    && (forall i :: 0 <= i < |labels| ==> |labels[i]| > 0)
    && (forall i, j :: 0 <= i < j < |labels| ==> labels[i][0] != labels[j][0])
  }

  lemma {:induction false} EntriesStart(labels: seq<string>, counts: seq<nat>)
    requires |labels| == |counts| && DistinctLabels(labels)
    ensures var e := Entries(labels, counts);
      |e| > 0 ==> exists i :: 0 <= i < |labels| && StartsWith(e[0], labels[i]) && |labels[i]| > 0
  {
    if |labels| > 0 && counts[0] == 0 {
      EntriesStart(labels[1..], counts[1..]);
      var e := Entries(labels[1..], counts[1..]);
      if |e| > 0 {
        var i :| 0 <= i < |labels| - 1 && StartsWith(e[0], labels[1..][i]) && |labels[1..][i]| > 0;
        assert StartsWith(e[0], labels[i + 1]);
      }
    }
  }

  /** The joined entries start with the first label whose count is positive, if any. */
  lemma {:induction false} JoinedEntriesStart(labels: seq<string>, counts: seq<nat>)
    requires |labels| == |counts| && DistinctLabels(labels) && |labels| > 0
    ensures var j := Join(Entries(labels[1..], counts[1..]), ", ");
      j == "" || (|j| > 0 && j[0] != labels[0][0])
  {
    var e := Entries(labels[1..], counts[1..]);
    if |e| > 0 {
      EntriesStartLater(labels, counts);
    }
  }

  lemma EntriesStartLater(labels: seq<string>, counts: seq<nat>)
    requires |labels| == |counts| && DistinctLabels(labels) && |labels| > 0
    requires |Entries(labels[1..], counts[1..])| > 0
    ensures var e := Entries(labels[1..], counts[1..]);
      |e[0]| > 0 && |Join(e, ", ")| > 0 && Join(e, ", ")[0] == e[0][0] && e[0][0] != labels[0][0]
  {
    var e := Entries(labels[1..], counts[1..]);
    assert DistinctLabels(labels[1..]);
    EntriesStart(labels[1..], counts[1..]);
    var i :| 0 <= i < |labels| - 1 && StartsWith(e[0], labels[1..][i]) && |labels[1..][i]| > 0;
    assert e[0][0] == labels[i + 1][0];
    if |e| == 1 {
      assert Join(e, ", ") == e[0];
    } else {
      assert Join(e, ", ") == e[0] + ", " + Join(e[1..], ", ");
    }
  }

  /** Reading one entry `label: n` followed by the rest of the breakdown. */
  lemma ParseOneEntry(labels: seq<string>, n: nat, sep: string, ns: seq<nat>)
    requires |labels| > 0
    requires sep == "" ==> ParseEntries("", labels[1..]) == Some(ns)
    requires sep != "" ==> StartsWith(sep, ", ") && ParseEntries(sep[2..], labels[1..]) == Some(ns)
    ensures ParseEntries(labels[0] + ": " + NatToDecimal(n) + sep, labels) == Some([n] + ns)
  {
    var head := labels[0] + ": ";
    var tail := NatToDecimal(n) + sep;
    var s := head + tail;
    assert labels[0] + ": " + NatToDecimal(n) + sep == s;
    assert StartsWith(s, head) && s[|head|..] == tail;
    if sep != "" {
      assert sep[0] == ',';
    }
    ReadCountOf(n, sep);
  }

  /** With a positive first count, the joined entries start with that count's entry. */
  lemma JoinPositive(labels: seq<string>, counts: seq<nat>)
    requires |labels| == |counts| && |labels| > 0 && counts[0] > 0
    ensures var tailE := Entries(labels[1..], counts[1..]);
      Join(Entries(labels, counts), ", ")
        == labels[0] + ": " + NatToDecimal(counts[0]) + (if |tailE| > 0 then ", " + Join(tailE, ", ") else "")
  {
    var tailE := Entries(labels[1..], counts[1..]);
    var e := Entries(labels, counts);
    assert e == [labels[0] + ": " + NatToDecimal(counts[0])] + tailE;
    if |tailE| > 0 {
      assert e[1..] == tailE;
    }
  }

  lemma ParsePositiveStep(labels: seq<string>, counts: seq<nat>)
    requires |labels| == |counts| && |labels| > 0 && counts[0] > 0
    requires ParseEntries(Join(Entries(labels[1..], counts[1..]), ", "), labels[1..]) == Some(counts[1..])
    ensures ParseEntries(Join(Entries(labels, counts), ", "), labels) == Some(counts)
  {
    var tailE := Entries(labels[1..], counts[1..]);
    var tailJ := Join(tailE, ", ");
    var sep := if |tailE| > 0 then ", " + tailJ else "";
    JoinPositive(labels, counts);
    if |tailE| > 0 {
      assert StartsWith(sep, ", ") && sep[2..] == tailJ;
    }
    ParseOneEntry(labels, counts[0], sep, counts[1..]);
    assert [counts[0]] + counts[1..] == counts;
  }

  lemma ParseZeroStep(labels: seq<string>, counts: seq<nat>)
    requires |labels| == |counts| && DistinctLabels(labels) && |labels| > 0 && counts[0] == 0
    requires ParseEntries(Join(Entries(labels[1..], counts[1..]), ", "), labels[1..]) == Some(counts[1..])
    ensures ParseEntries(Join(Entries(labels, counts), ", "), labels) == Some(counts)
  {
    var j := Join(Entries(labels[1..], counts[1..]), ", ");
    assert Entries(labels, counts) == Entries(labels[1..], counts[1..]);
    JoinedEntriesStart(labels, counts);
    var head := labels[0] + ": ";
    assert head[0] == labels[0][0];
    assert !StartsWith(j, head);
    assert ParseEntries(j, labels) == Some([0] + counts[1..]);
    assert [0] + counts[1..] == counts;
  }

  /** Parsing the joined entries recovers every count, 0 for those left out. */
  lemma {:induction false} ParseEntriesRoundTrip(labels: seq<string>, counts: seq<nat>)
    requires |labels| == |counts| && DistinctLabels(labels)
    ensures ParseEntries(Join(Entries(labels, counts), ", "), labels) == Some(counts)
    decreases |labels|
  {
    if |labels| > 0 {
      assert DistinctLabels(labels[1..]);
      ParseEntriesRoundTrip(labels[1..], counts[1..]);
      if counts[0] > 0 {
        ParsePositiveStep(labels, counts);
      } else {
        ParseZeroStep(labels, counts);
      }
    }
  }

  /** The breakdown entries for the popup's three counts, written out. */
  lemma EntriesOfCounts(p2p: nat, apSubscriptions: nat, clients: nat)
    ensures Entries(Labels, Counts(p2p, apSubscriptions, clients))
         == (if p2p > 0 then ["PtP: " + NatToDecimal(p2p)] else [])
          + (if clients > 0 then ["Clients: " + NatToDecimal(clients)] else [])
          + (if apSubscriptions > 0 then ["AP client: " + NatToDecimal(apSubscriptions)] else [])
  {
    var c := Counts(p2p, apSubscriptions, clients);
    var l1, c1 := Labels[1..], c[1..];
    var l2, c2 := l1[1..], c1[1..];
    assert l1 == ["Clients", "AP client"] && c1 == [clients, apSubscriptions];
    assert l2 == ["AP client"] && c2 == [apSubscriptions];
    assert l2[1..] == [] && c2[1..] == [];
    assert "AP client" + ": " == "AP client: ";
    assert "Clients" + ": " == "Clients: ";
    assert "PtP" + ": " == "PtP: ";
    var e2 := if apSubscriptions > 0 then ["AP client: " + NatToDecimal(apSubscriptions)] else [];
    assert Entries(l2, c2) == e2 + Entries(l2[1..], c2[1..]);
    var e1 := if clients > 0 then ["Clients: " + NatToDecimal(clients)] else [];
    assert Entries(l1, c1) == e1 + Entries(l2, c2);
    var e0 := if p2p > 0 then ["PtP: " + NatToDecimal(p2p)] else [];
    assert Entries(Labels, c) == e0 + Entries(l1, c1);
  }

  lemma ParseBareTotal(n: nat)
    ensures ParseSummary(NatToDecimal(n)) == Some(Reading(n, [0, 0, 0]))
  {
    ReadCountOf(n, "");
    assert NatToDecimal(n) + "" == NatToDecimal(n);
  }

  lemma ParseTotalWithBreakdown(n: nat, j: string, ns: seq<nat>)
    requires ParseEntries(j, Labels) == Some(ns)
    ensures ParseSummary(NatToDecimal(n) + (" (" + j + ")")) == Some(Reading(n, ns))
  {
    var tail := " (" + j + ")";
    ReadCountOf(n, tail);
    assert tail[..2] == " (" && tail[|tail| - 1] == ')';
    assert tail[2..|tail| - 1] == j;
  }

  /**
   A summary line determines the node's counters: reading it back gives the
   total and each of the three counts.
   */
  lemma SummaryRoundTrip(p2p: nat, apSubscriptions: nat, clients: nat)
    ensures ParseSummary(LinksSummary(p2p, apSubscriptions, clients))
         == Some(Reading(p2p + apSubscriptions + clients, Counts(p2p, apSubscriptions, clients)))
  {
    if |Entries(Labels, Counts(p2p, apSubscriptions, clients))| > 0 {
      RoundTripWithBreakdown(p2p, apSubscriptions, clients);
    } else {
      RoundTripBare(p2p, apSubscriptions, clients);
    }
  }

  lemma LabelsDistinct()
    ensures DistinctLabels(Labels)
  {
    assert Labels[0][0] == 'P' && Labels[1][0] == 'C' && Labels[2][0] == 'A';
  }

  lemma RoundTripWithBreakdown(p2p: nat, apSubscriptions: nat, clients: nat)
    requires |Entries(Labels, Counts(p2p, apSubscriptions, clients))| > 0
    ensures ParseSummary(LinksSummary(p2p, apSubscriptions, clients))
         == Some(Reading(p2p + apSubscriptions + clients, Counts(p2p, apSubscriptions, clients)))
  {
    var counts := Counts(p2p, apSubscriptions, clients);
    var j := Join(Entries(Labels, counts), ", ");
    var n := p2p + apSubscriptions + clients;
    assert LinksSummary(p2p, apSubscriptions, clients) == NatToDecimal(n) + (" (" + j + ")");
    LabelsDistinct();
    ParseEntriesRoundTrip(Labels, counts);
    ParseTotalWithBreakdown(n, j, counts);
  }

  lemma RoundTripBare(p2p: nat, apSubscriptions: nat, clients: nat)
    requires |Entries(Labels, Counts(p2p, apSubscriptions, clients))| == 0
    ensures ParseSummary(LinksSummary(p2p, apSubscriptions, clients))
         == Some(Reading(p2p + apSubscriptions + clients, Counts(p2p, apSubscriptions, clients)))
  {
    var n := p2p + apSubscriptions + clients;
    EntriesOfCounts(p2p, apSubscriptions, clients);
    assert p2p == 0 && apSubscriptions == 0 && clients == 0;
    assert Counts(p2p, apSubscriptions, clients) == [0, 0, 0];
    assert LinksSummary(p2p, apSubscriptions, clients) == NatToDecimal(n) + "";
    assert NatToDecimal(n) + "" == NatToDecimal(n);
    ParseBareTotal(n);
  }

  /** Different counters never share a summary line. */
  lemma SummaryInjective(a: nat, b: nat, c: nat, a': nat, b': nat, c': nat)
    requires LinksSummary(a, b, c) == LinksSummary(a', b', c')
    ensures a == a' && b == b' && c == c'
  {
    SummaryRoundTrip(a, b, c);
    SummaryRoundTrip(a', b', c');
    assert Counts(a, b, c) == Counts(a', b', c');
    assert Counts(a, b, c)[0] == a && Counts(a', b', c')[0] == a';
  }

  /** The breakdown is left out exactly when all three counts are zero. */
  lemma SummaryBareTotal(p2p: nat, apSubscriptions: nat, clients: nat)
    ensures LinksSummary(p2p, apSubscriptions, clients) == NatToDecimal(p2p + apSubscriptions + clients)
        <==> p2p == 0 && apSubscriptions == 0 && clients == 0
  {
    EntriesOfCounts(p2p, apSubscriptions, clients);
    var total := NatToDecimal(p2p + apSubscriptions + clients);
    var extra := Entries(Labels, Counts(p2p, apSubscriptions, clients));
    if p2p > 0 || apSubscriptions > 0 || clients > 0 {
      assert |extra| > 0;
      var tail := " (" + Join(extra, ", ") + ")";
      assert LinksSummary(p2p, apSubscriptions, clients) == total + tail;
      assert |total + tail| > |total|;
    } else {
      assert extra == [];
      assert LinksSummary(p2p, apSubscriptions, clients) == total + "";
      assert total + "" == total;
    }
  }

  lemma SmallNumerals()
    ensures NatToDecimal(2) == "2" && NatToDecimal(3) == "3" && NatToDecimal(5) == "5"
  {
    assert DigitChar(5) == '5' && DigitChar(3) == '3' && DigitChar(2) == '2';
  }

  lemma ExampleEntries()
    ensures Entries(Labels, Counts(3, 2, 0)) == ["PtP: 3", "AP client: 2"]
  {
    EntriesOfCounts(3, 2, 0);
    SmallNumerals();
    assert "PtP: " + "3" == "PtP: 3";
    assert "AP client: " + "2" == "AP client: 2";
  }

  lemma ExampleJoin()
    ensures Join(["PtP: 3", "AP client: 2"], ", ") == "PtP: 3, AP client: 2"
  {
    var xs := ["PtP: 3", "AP client: 2"];
    assert Join(xs, ", ") == xs[0] + ", " + Join(xs[1..], ", ");
    assert Join(xs[1..], ", ") == "AP client: 2";
  }

  /** The worked example: (PtP 3, AP subscriptions 2, clients 0). */
  lemma SummaryExample()
    ensures LinksSummary(3, 2, 0) == "5 (PtP: 3, AP client: 2)"
  {
    ExampleEntries();
    ExampleJoin();
    SmallNumerals();
    assert LinksSummary(3, 2, 0) == "5" + (" (" + "PtP: 3, AP client: 2" + ")");
  }

  /** A node's links line, read back, gives the node's total and its counters in label order. */
  lemma NodeSummaryRoundTrip(n: Features.Node)
    ensures ParseSummary(NodeLinksSummary(n))
         == Some(Reading(n.totalP2p + n.totalApSubscriptions + n.totalClients,
                         [n.totalP2p, n.totalClients, n.totalApSubscriptions]))
  {
    SummaryRoundTrip(n.totalP2p, n.totalApSubscriptions, n.totalClients);
  }
}

=== FILE: text.dfy ===
/**
 Character-level helpers shared by the model: an optional value, decimal
 rendering of natural numbers (JavaScript's `String(n)` for a non-negative
 integer) with its parser, and joining / splitting on a separator
 (`Array.prototype.join` and `String.prototype.split`).
 */
module Text {

  datatype Option<+T> = None | Some(value: T)

  predicate IsDigit(c: char) {
    '0' <= c <= '9'
  }

  predicate AllDigits(s: string) {
    forall i :: 0 <= i < |s| ==> IsDigit(s[i])
  }

  function DigitChar(d: nat): (c: char)
    requires d < 10
    ensures IsDigit(c) && DigitValue(c) == d
  {
    (d + '0' as int) as char
  }

  function DigitValue(c: char): nat
    requires IsDigit(c)
  {
    c as int - '0' as int
  }

  /** The decimal numeral of `n`, without leading zeros. */
  function NatToDecimal(n: nat): (s: string)
    ensures |s| >= 1 && AllDigits(s)
    ensures s[0] == '0' ==> n == 0
    ensures n < 10 <==> |s| == 1
    decreases n
  {
    if n < 10 then [DigitChar(n)] else NatToDecimal(n / 10) + [DigitChar(n % 10)]
  }

  /** The value of a string of decimal digits. */
  function DecimalToNat(s: string): nat
    requires AllDigits(s)
  {
    if |s| == 0 then 0 else DecimalToNat(s[..|s| - 1]) * 10 + DigitValue(s[|s| - 1])
  }

  /** Reading back the numeral of `n` gives `n`. */
  lemma {:induction false} DecimalRoundTrip(n: nat)
    ensures DecimalToNat(NatToDecimal(n)) == n
    decreases n
  {
    if n >= 10 {
      var s := NatToDecimal(n);
      assert s[..|s| - 1] == NatToDecimal(n / 10);
      DecimalRoundTrip(n / 10);
    }
  }

  /** The longest prefix of `s` made of decimal digits. */
  function DigitPrefix(s: string): (d: string)
    ensures AllDigits(d) && d <= s
    ensures |d| < |s| ==> !IsDigit(s[|d|])
  {
    if |s| == 0 || !IsDigit(s[0]) then "" else [s[0]] + DigitPrefix(s[1..])
  }

  /** A digit string followed by a non-digit (or nothing) is exactly the digit prefix. */
  lemma {:induction false} DigitPrefixOfNumeral(d: string, rest: string)
    requires AllDigits(d)
    requires |rest| == 0 || !IsDigit(rest[0])
    ensures DigitPrefix(d + rest) == d
  {
    if |d| > 0 {
      assert (d + rest)[1..] == d[1..] + rest;
      DigitPrefixOfNumeral(d[1..], rest);
    }
  }

  /** `xs.join(sep)`: the elements of `xs` with `sep` between neighbours. */
  function Join(xs: seq<string>, sep: string): string
  {
    if |xs| == 0 then "" else if |xs| == 1 then xs[0] else xs[0] + sep + Join(xs[1..], sep)
  }

  /** `s.split(c)`: the maximal pieces of `s` between occurrences of `c`. */
  function Split(s: string, c: char): (pieces: seq<string>)
    ensures |pieces| >= 1
  {
    if |s| == 0 then [""]
    else
      var rest := Split(s[1..], c);
      if s[0] == c then [""] + rest else [[s[0]] + rest[0]] + rest[1..]
  }

  lemma {:induction false} SplitNoSeparator(s: string, c: char)
    requires c !in s
    ensures Split(s, c) == [s]
  {
    if |s| > 0 {
      SplitNoSeparator(s[1..], c);
      assert [s[0]] + s[1..] == s;
    }
  }

  lemma {:induction false} SplitAtFirstSeparator(a: string, c: char, b: string)
    requires c !in a
    ensures Split(a + [c] + b, c) == [a] + Split(b, c)
  {
    if |a| == 0 {
      assert a + [c] + b == [c] + b;
      assert ([c] + b)[1..] == b;
    } else {
      assert (a + [c] + b)[1..] == a[1..] + [c] + b;
      SplitAtFirstSeparator(a[1..], c, b);
      assert [a[0]] + a[1..] == a;
    }
  }

  /** Splitting the joined pieces on the separator gives the pieces back,
      provided no piece contains the separator. */
  lemma {:induction false} SplitJoinRoundTrip(xs: seq<string>, c: char)
    requires |xs| >= 1
    requires forall i :: 0 <= i < |xs| ==> c !in xs[i]
    ensures Split(Join(xs, [c]), c) == xs
  {
    if |xs| == 1 {
      SplitNoSeparator(xs[0], c);
    } else {
      SplitAtFirstSeparator(xs[0], c, Join(xs[1..], [c]));
      SplitJoinRoundTrip(xs[1..], c);
      assert [xs[0]] + xs[1..] == xs;
    }
  }
}
